=== FILE: README.md ===
# slf4j-osgi, modelled in Dafny

A model of the OSGi binding for SLF4J (`org.slf4j.impl` in `slf4j-osgi`). The binding hands SLF4J log calls to whichever OSGi `LogService` is registered at the moment. It has four parts:

- **MessageFormattingLogger** gives every level (trace, debug, info, warn, error) five overloads. The parameterized overloads check the level before the message formatter runs.
- **LoggerImpl** gates each call on a nullable threshold. It converts the SLF4J level code (0, 10, …, 40) to an OSGi level (5 down to 1). It then submits the entry to the tracked `LogService`: once with no attribution, or once per service reference tracked under the logger's name.
- **LoggerFactoryImpl** caches one logger per name. Each new logger inherits the factory's current threshold and broker tracker. While a bundle context is known, the factory also uses it to create a tracker for the logger's name.
- **Activator** is the bundle's lifecycle: `start`, `updated` (configuration) and `stop`. It converts a configured verbosity N to the threshold `ERROR_INT - (N - 1) * 10` and pushes the new state to every cached logger.

Everything is a pure function over immutable values:

- A `Factory` record holds the logger table.
- `Start`, `Updated` and `Stop` return the state they leave behind, plus the exception they raise, if any. A Java exception does not undo the assignments made before it, so a failed `start` still leaves the context and broker tracker set.
- A log call returns the sequence of things it causes: formatter invocations and `LogService.log` submissions.
- The OSGi framework is an oracle. A `Registry` says what each `ServiceTracker` reports. Following `ServiceTracker`'s own contract, a tracker that was never opened reports nothing.

Java `int` arithmetic is written out. Wrap-around, truncating division and `Integer.parseInt` are all explicit (module `JavaLang`).

Files: `wrappers.dfy`, `java_lang.dfy`, `osgi.dfy`, `levels.dfy`, `message_formatting_logger.dfy`, `logger_impl.dfy`, `logger_factory.dfy`, `activator.dfy`.

Two facts about the level arithmetic are worth stating up front:

- **No range check on verbosity.** Any `int` is accepted: "7" gives the threshold -20 and enables everything (`Activator.SevenIsAccepted`).
- **The conversion in `log`.** `log` computes `-(level - ERROR_INT) / 10 + 1`, which maps ERROR→1, WARN→2, INFO→3, DEBUG→4 and TRACE→5.

## Model

| member | source | states |
|---|---|---|
| JavaLang.Div | slf4j-osgi/src/main/java/org/slf4j/impl/LoggerImpl.java:55 | Java's `/` rounds toward zero: the remainder keeps the dividend's sign and is smaller than the divisor |
| JavaLang.ParseInt | slf4j-osgi/src/main/java/org/slf4j/impl/Activator.java:33-34 | `Integer.valueOf(String)`: a parsed value comes from a non-empty run of ASCII digits after an optional sign, and is that run's value, negated after `-`; a non-digit after the sign is rejected, and a digit run whose value fits in an `int` is accepted |
| JavaLang.ToDecimal | slf4j-osgi/src/main/java/org/slf4j/impl/Activator.java:33-34 | the decimal form of every `int`, including `INT_MIN`, parses back to that `int` |
| Levels.Code | slf4j-osgi/src/main/java/org/slf4j/impl/MessageFormattingLogger.java:94-319 | each leveled method passes the constant ten times its severity rank: TRACE 0, DEBUG 10, INFO 20, WARN 30, ERROR 40 |
| Levels.Admits | slf4j-osgi/src/main/java/org/slf4j/impl/LoggerImpl.java:45-47 | `isLevelEnabled`: a null threshold enables no level; otherwise a level is enabled if and only if the threshold is at most the level |
| Levels.OsgiLevel | slf4j-osgi/src/main/java/org/slf4j/impl/LoggerImpl.java:55 | the OSGi level of an SLF4J level is `(40 - level) / 10 + 1` for levels up to ERROR (above `INT_MIN + 40`, where nothing wraps), and `1 - (level - 40) / 10`, rounded toward zero, for levels above ERROR |
| Levels.Threshold | slf4j-osgi/src/main/java/org/slf4j/impl/Activator.java:31-35 | the threshold for verbosity n is always congruent to `ERROR_INT - (n - 1) * 10` modulo 2^32, and equal to it whenever that value fits in an `int`, even when `(n - 1) * 10` itself wrapped |
| Levels.OsgiLevelOfCodes | slf4j-osgi/src/main/java/org/slf4j/impl/LoggerImpl.java:55 | ERROR, WARN, INFO, DEBUG and TRACE go out as OSGi levels 1, 2, 3, 4 and 5 |
| Levels.ThresholdRoundTrip | slf4j-osgi/src/main/java/org/slf4j/impl/Activator.java:31-35 | converting the threshold derived from verbosity n back to the OSGi scale gives n, for every n without overflow |
| Levels.OsgiLevelRoundTrip | slf4j-osgi/src/main/java/org/slf4j/impl/LoggerImpl.java:55 | for every level above `INT_MIN + 40`, an SLF4J level survives the trip to the OSGi scale and back if and only if it is a multiple of ten; below that bound `level - ERROR_INT` wraps |
| Levels.VerbosityGate | slf4j-osgi/src/main/java/org/slf4j/impl/LoggerImpl.java:45-47 | for every verbosity n whose threshold does not overflow (`ThresholdFits`), n enables a level if and only if the level's OSGi number is at most n |
| Levels.VerbosityOutOfRange | slf4j-osgi/src/main/java/org/slf4j/impl/Activator.java:31-35 | there is no range check: for every verbosity n whose threshold does not overflow (`ThresholdFits`), n of 5 or more enables every level and n of 0 or less enables none |
| Levels.ThresholdWraps | slf4j-osgi/src/main/java/org/slf4j/impl/Activator.java:31-35 | the `int` arithmetic wraps: verbosity 429496730 yields threshold 46, which silences even ERROR |
| Levels.AdmitsMonotone | slf4j-osgi/src/main/java/org/slf4j/impl/LoggerImpl.java:45-47 | a threshold that enables a level enables every more severe level |
| Osgi.GetService | slf4j-osgi/src/main/java/org/slf4j/impl/LoggerImpl.java:52-53 | a tracker reports a service only if it was opened and the registry has one for it |
| Osgi.GetServiceReferences | slf4j-osgi/src/main/java/org/slf4j/impl/LoggerImpl.java:57-58 | a tracker reports references only if it was opened; otherwise `null` |
| MessageFormattingLogger.FormatAndLog | slf4j-osgi/src/main/java/org/slf4j/impl/MessageFormattingLogger.java:58-79 | on a disabled level neither the formatter nor `log` is called; otherwise the formatter runs once, then `log` is called once at the same level with the formatter's message and throwable |
| MessageFormattingLogger.IsLevelEnabled | slf4j-osgi/src/main/java/org/slf4j/impl/MessageFormattingLogger.java:87-89 | the base class enables every level; LoggerImpl's override enables exactly what its threshold admits |
| MessageFormattingLogger.IsEnabled | slf4j-osgi/src/main/java/org/slf4j/impl/MessageFormattingLogger.java:94-96 | `isTraceEnabled` … `isErrorEnabled` (also lines 140-142, 186-188, 232-234 and 278-280) each ask `isLevelEnabled` about their own constant, ten times the level's severity rank |
| MessageFormattingLogger.Invoke | slf4j-osgi/src/main/java/org/slf4j/impl/MessageFormattingLogger.java:98-319 | the formatter runs if and only if the overload is parameterized and its level is enabled; every `log` call uses the method's own level constant; plain overloads call `log` unconditionally, with a null throwable or `t` unchanged |
| MessageFormattingLogger.OneArgPassesNull | slf4j-osgi/src/main/java/org/slf4j/impl/MessageFormattingLogger.java:110-112 | a single-argument overload behaves as the two-argument one with a null second argument |
| MessageFormattingLogger.BaseGateAlwaysFormats | slf4j-osgi/src/main/java/org/slf4j/impl/MessageFormattingLogger.java:87-89 | the base `isLevelEnabled` enables every level, so every parameterized call is formatted and logged once |
| LoggerImpl.FanOut | slf4j-osgi/src/main/java/org/slf4j/impl/LoggerImpl.java:61-64 | n references give exactly n submissions, in array order, with identical service, level, message and throwable |
| LoggerImpl.Log | slf4j-osgi/src/main/java/org/slf4j/impl/LoggerImpl.java:49-68 | nothing is submitted on a disabled level or without a broker service; every submission goes to the broker at the converted level with the given message and throwable; with no reference array there is one unattributed submission, otherwise one per reference |
| LoggerImpl.Run | slf4j-osgi/src/main/java/org/slf4j/impl/LoggerImpl.java:45-68 | a public call on a LoggerImpl: parameterized on a disabled level, nothing; parameterized on an enabled level, one formatter call followed by `log`'s submissions; plain overloads go to `log` directly, which gates again |
| LoggerImpl.DisabledCallIsSilent | slf4j-osgi/src/main/java/org/slf4j/impl/LoggerImpl.java:45-47 | a call on a disabled level, including every level under a null threshold, causes nothing at all |
| LoggerImpl.EnabledCallFansOut | slf4j-osgi/src/main/java/org/slf4j/impl/LoggerImpl.java:61-64 | an enabled call with references tracked under the name submits the message once per reference at the level's OSGi number |
| LoggerImpl.EnabledCallUnattributed | slf4j-osgi/src/main/java/org/slf4j/impl/LoggerImpl.java:57-60 | an enabled call with no references tracked submits exactly once, with a null reference |
| LoggerImpl.EnabledCallSubmits | slf4j-osgi/src/main/java/org/slf4j/impl/LoggerImpl.java:57-64 | under a registry a real tracker can produce (never an empty reference array), an enabled call with a broker present submits at least once |
| LoggerFactory.NewFactory | slf4j-osgi/src/main/java/org/slf4j/impl/LoggerFactoryImpl.java:37-45 | a new factory has an empty logger table and a null threshold, context and broker tracker |
| LoggerFactory.GetLogger | slf4j-osgi/src/main/java/org/slf4j/impl/LoggerFactoryImpl.java:47-64 | repeat calls return the cached logger and change nothing; a new logger inherits the threshold and broker tracker; it gets a per-name tracker only while a context is known and creation succeeds; a failed creation clears the context but still caches the logger; the table only grows |
| LoggerFactory.FreshFactoryIsSilent | slf4j-osgi/src/main/java/org/slf4j/impl/LoggerFactoryImpl.java:43-45 | a fresh factory hands out loggers with a null threshold, on which every call is silent |
| LoggerFactory.GetLoggerKeepsInvariants | slf4j-osgi/src/main/java/org/slf4j/impl/LoggerFactoryImpl.java:47-64 | `getLogger` keeps every logger filed under its own name and in step with the factory's threshold and broker tracker |
| LoggerFactory.GetLoggerOpened | slf4j-osgi/src/main/java/org/slf4j/impl/LoggerFactoryImpl.java:53-56 | corrected `getLogger`: the same as `getLogger` except that a newly created per-name tracker is opened |
| Activator.SetLogLevel | slf4j-osgi/src/main/java/org/slf4j/impl/Activator.java:28-40 | only the threshold changes: null for an absent value, `Threshold(n)` for an `Integer` or parsable `String`; an unparsable `String` raises `ConfigurationException` with a `NumberFormatException` cause naming the string, a value of another class raises it with a `ClassCastException` cause, and either failure changes nothing |
| Activator.Start | slf4j-osgi/src/main/java/org/slf4j/impl/Activator.java:42-64 | records the context and opened broker tracker; an absent property means verbosity 3; on success every cached logger gets the threshold, the broker tracker and an opened tracker for its name; an unparsable property raises and touches no logger |
| Activator.Updated | slf4j-osgi/src/main/java/org/slf4j/impl/Activator.java:72-82 | on success every cached logger takes the new threshold and nothing else changes; a rejected value or a null dictionary changes nothing |
| Activator.Stop | slf4j-osgi/src/main/java/org/slf4j/impl/Activator.java:84-101 | clears the threshold, the context, the broker tracker and every logger's trackers and threshold, and keeps the table; before any start it throws `NullPointerException` |
| Activator.StringFormAgrees | slf4j-osgi/src/main/java/org/slf4j/impl/Activator.java:31-35 | the decimal string of a verbosity configures the same threshold as the `Integer` |
| Activator.SevenIsAccepted | slf4j-osgi/src/main/java/org/slf4j/impl/Activator.java:31-35 | "7" is accepted, gives the threshold -20 and enables every level |
| Activator.UnparsableUpdateIsRejected | slf4j-osgi/src/main/java/org/slf4j/impl/Activator.java:36-39 | updating with "abc" raises `ConfigurationException` naming "abc" and leaves every logger unchanged |
| Activator.StartDefaultsToInfo | slf4j-osgi/src/main/java/org/slf4j/impl/Activator.java:46-51 | with no framework property, `start` enables INFO, WARN and ERROR on every cached logger and nothing below |
| Activator.UpdateWithoutLevelDisablesAll | slf4j-osgi/src/main/java/org/slf4j/impl/Activator.java:72-81 | a configuration without the verbosity key disables every level on every cached logger |
| Activator.StopSilencesEveryLogger | slf4j-osgi/src/main/java/org/slf4j/impl/Activator.java:84-100 | after `stop`, `getLogger` still returns the cached logger and every call on it is silent |
| Activator.TransitionsKeepInvariants | slf4j-osgi/src/main/java/org/slf4j/impl/Activator.java:48-100 | all transitions keep each logger under its own name; a successful `start` or `stop` leaves every logger in step with the factory's threshold and broker tracker, and a successful `updated` keeps loggers that already were in step (it copies only the threshold, so it does not repair a logger left behind by a failed `start`) |
| Activator.GetLoggerAfterStartIsUnattributed | slf4j-osgi/src/main/java/org/slf4j/impl/LoggerFactoryImpl.java:53-56 | as written, a logger requested after `start` does not fan out over two registered references, while one requested before `start` does |
| Activator.GetLoggerOpenedCommutesWithStart | slf4j-osgi/src/main/java/org/slf4j/impl/Activator.java:52-63 | with the corrected `getLogger`, requesting a logger before or after a successful `start` yields the same table |

## Left out

- Message substitution: `MessageFormatter.format`, `arrayFormat` and `FormattingTuple` are not part of this model. The formatter is an opaque oracle, and the model records only whether it was invoked and what it returned.
- OSGi framework behaviour: `ServiceTracker`, `BundleContext` and `LogService.log` are foreign APIs. What a tracker reports is an input (`Registry`), and submissions are recorded as data. Closing a tracker is not modelled, because the closed tracker is always dropped from the state at the same time.
- Tracker identity: trackers are values (context, class, opened), not objects. Two trackers created alike are indistinguishable, including the unopened tracker that `start` overwrites.
- Tracker creation inside `start`: both the broker tracker and the per-name trackers are assumed to be created without `IllegalStateException`, since the framework guarantees a valid context during `start`. The failure is modelled only in `getLogger`.
- Logger names that are not valid filter values: `new ServiceTracker(context, name, null)` builds the filter `(objectClass=<name>)`, and for a name such as `a(b` it throws `IllegalArgumentException`, which neither `getLogger` nor `start` catches. The model assumes every logger name is a valid filter value. Unmodelled, `getLogger` would throw, cache nothing and keep the context, and `start` would stop partway through its loop with only some loggers updated.
- Concurrency: the `synchronized` blocks only serialise the transitions, and each transition is modelled as one step.
- ManagedService registration at the end of `start`, including the `SERVICE_PID` properties object, which is built but never passed to `registerService`.
- The `Activator` constructor's `StaticLoggerBinder` lookup, `serialVersionUID`, and the marker-taking overloads inherited from `MarkerIgnoringBase`.
- Java overload resolution: a call names its overload directly (`Call`), so the compile-time choice between `X(String, Object)` and `X(String, Throwable)` is not modelled.
- Null logger names: a name is always a string.
- Object identity and aliasing: `getLogger` returns the logger as a value. In Java it hands out the object that `start`, `updated` and `stop` later change in place. A handed-out logger stands for its entry in the factory's table: after a transition, the logger a caller holds is `loggers[name]` of the new state, as `Activator.StopSilencesEveryLogger` reads it.
- Osgi.Registry: looser than `ServiceTracker`. It lets an open tracker report an empty reference array, which a real tracker never does (it answers `null`), and then `Log` submits nothing. `Osgi.Realizable` names the registries a real tracker can produce, and `LoggerImpl.EnabledCallSubmits` is stated under it.
- JavaLang.ParseInt: accepts only ASCII digits. Java's `Character.digit` also accepts other Unicode decimal digits.

## Findings

| source | as written | input that shows it | evidently intended | confidence | as-written member | corrected member |
|---|---|---|---|---|---|---|
| slf4j-osgi/src/main/java/org/slf4j/impl/LoggerFactoryImpl.java:53-56 | `getLogger` creates the per-name `ServiceTracker` but never calls `open()` on it. An unopened tracker reports no references, so a logger first requested after `start` always submits without attribution. | `start`, then `getLogger("a")`, with two services registered under "a": an ERROR call is submitted once, unattributed. A logger requested before `start` is submitted twice, once per reference. | the new tracker is opened, as `start` opens the trackers it creates, so the order of `getLogger` and `start` does not matter | medium, not executed | Activator.GetLoggerAfterStartIsUnattributed | LoggerFactory.GetLoggerOpened |

=== FILE: activator.dfy ===
/** `Activator`: the bundle's lifecycle and configuration callbacks. `start`
    opens the broker tracker, sets the threshold from the framework property
    and attaches opened per-name trackers to every cached logger; `updated`
    re-derives the threshold from a configuration; `stop` detaches
    everything, leaving the cached loggers inert. Each transition returns
    the factory state it leaves behind, together with the exception it
    raises, if any: a Java exception does not undo the assignments made
    before it was thrown. */
module Activator {
  import opened Wrappers
  import opened JavaLang
  import opened Osgi
  import opened Levels
  import opened MessageFormattingLogger
  import opened LoggerImpl
  import opened LoggerFactory

  /** The verbosity property as looked up: absent (`null`), an `Integer`, a
      `String`, or an object of some other class. */
  datatype ConfigValue = Absent | IntegerValue(n: int32) | StringValue(s: string) | OtherValue

  /** The `RuntimeException` inside `setLogLevel`. */
  datatype Cause = NumberFormat(input: string) | ClassCast

  /** The exceptions a transition raises. */
  datatype Failure = ConfigurationException(property: string, cause: Cause) | NullPointerException

  datatype Outcome = Outcome(factory: Factory, failure: Option<Failure>)

  /** The verbosity a configured value denotes; `None` for an absent value. */
  function Verbosity(v: ConfigValue): Result<Option<int32>, Cause>
  {
    match v
    case Absent => Success(None)
    case IntegerValue(n) => Success(Some(n))
    case StringValue(s) => if ParseInt(s).Some? then Success(ParseInt(s)) else Failure(NumberFormat(s))
    case OtherValue => Failure(ClassCast)
  }

  /** `setLogLevel(value)`: sets only the factory's threshold, to null for an
      absent value and to `ERROR_INT - (n - 1) * 10` for a verbosity `n`,
      with no range check; an unparsable `String` raises
      `ConfigurationException` with a `NumberFormat` cause naming the string,
      a value of another class raises it with a `ClassCast` cause, and
      either failure changes nothing. */
  function SetLogLevel(f: Factory, v: ConfigValue): (r: Result<Factory, Failure>)
    ensures r.Success? ==> r.value == f.(logLevel := r.value.logLevel)
    ensures v.Absent? ==> r == Success(f.(logLevel := None))
    ensures v.IntegerValue? ==> r == Success(f.(logLevel := Some(Threshold(v.n))))
    ensures v.StringValue? ==> (r.Success? <==> ParseInt(v.s).Some?)
    ensures v.StringValue? && r.Success? ==> r.value.logLevel == Some(Threshold(ParseInt(v.s).value))
    ensures v.OtherValue? ==> r.Failure?
    ensures r.Failure? ==>
      r.error == ConfigurationException(LOG_PACKAGE, if v.StringValue? then NumberFormat(v.s) else ClassCast)
  {
    match Verbosity(v)
    case Failure(cause) => Failure(ConfigurationException(LOG_PACKAGE, cause))
    case Success(n) => Success(f.(logLevel := if n.None? then None else Some(Threshold(n.value))))
  }

  /** The broker tracker `start` opens on `ctx`. */
  function BrokerTracker(ctx: Context): Tracker
  {
    Tracker(ctx, LOG_SERVICE_CLASS, true)
  }

  /** `start(ctx)`, with `property` the framework property the verbosity is
      read from (`getProperty` yields a `String` or `null`, and `null`
      means 3). The context and the opened broker tracker are recorded
      first; if the property does not parse the exception leaves them there
      and touches no logger. Otherwise every cached logger gets the new
      threshold, the broker tracker and an opened tracker for its name. */
  function Start(f: Factory, ctx: Context, property: Option<string>): (o: Outcome)
    ensures o.factory.bundleContext == Some(ctx)
    ensures o.factory.logServiceTracker == Some(BrokerTracker(ctx))
    ensures o.factory.loggers.Keys == f.loggers.Keys
    ensures o.failure.Some? <==> property.Some? && ParseInt(property.value).None?
    ensures o.failure.Some? ==>
      && o.failure.value == ConfigurationException(LOG_PACKAGE, NumberFormat(property.value))
      && o.factory.loggers == f.loggers
      && o.factory.logLevel == f.logLevel
    ensures o.failure.None? ==>
      && o.factory.logLevel == Some(Threshold(if property.None? then 3 else ParseInt(property.value).value))
      && Synced(o.factory)
      && forall n :: n in o.factory.loggers ==>
        o.factory.loggers[n] == f.loggers[n].(
          logLevel := o.factory.logLevel,
          serviceTracker := Some(Tracker(ctx, n, true)),
          logServiceTracker := Some(BrokerTracker(ctx)))
  {
    var broker := BrokerTracker(ctx);
    var f1 := f.(bundleContext := Some(ctx), logServiceTracker := Some(broker));
    var value := if property.None? then IntegerValue(3) else StringValue(property.value);
    match SetLogLevel(f1, value)
    case Failure(e) => Outcome(f1, Some(e))
    case Success(f2) =>
      var loggers := map n | n in f2.loggers ::
        f2.loggers[n].(logLevel := f2.logLevel, serviceTracker := Some(Tracker(ctx, n, true)), logServiceTracker := Some(broker));
      Outcome(f2.(loggers := loggers), None)
  }

  /** `updated(properties)`, with `properties` the configuration dictionary
      reduced to the value under the verbosity key, `None` for a null
      dictionary (whose lookup throws `NullPointerException`). On success
      every cached logger takes the new threshold and nothing else changes;
      on failure nothing changes at all. */
  function Updated(f: Factory, properties: Option<ConfigValue>): (o: Outcome)
    ensures properties.None? ==> o == Outcome(f, Some(NullPointerException))
    ensures o.failure.Some? ==> o.factory == f
    ensures properties.Some? ==> (o.failure.None? <==> SetLogLevel(f, properties.value).Success?)
    ensures o.failure.None? ==>
      && o.factory.logLevel == SetLogLevel(f, properties.value).value.logLevel
      && o.factory.loggers.Keys == f.loggers.Keys
      && o.factory.bundleContext == f.bundleContext
      && o.factory.logServiceTracker == f.logServiceTracker
      && forall n :: n in o.factory.loggers ==> o.factory.loggers[n] == f.loggers[n].(logLevel := o.factory.logLevel)
  {
    if properties.None? then Outcome(f, Some(NullPointerException))
    else
      match SetLogLevel(f, properties.value)
      case Failure(e) => Outcome(f, Some(e))
      case Success(f2) =>
        var loggers := map n | n in f2.loggers :: f2.loggers[n].(logLevel := f2.logLevel);
        Outcome(f2.(loggers := loggers), None)
  }

  /** `stop(ctx)`: closes and forgets the broker tracker, the per-name
      trackers and every threshold, and forgets the context. The table keeps
      every logger. Without a broker tracker (`stop` before any `start`) the
      first dereference throws `NullPointerException` and nothing changes. */
  function Stop(f: Factory): (o: Outcome)
    ensures f.logServiceTracker.None? ==> o == Outcome(f, Some(NullPointerException))
    ensures f.logServiceTracker.Some? ==>
      && o.failure.None?
      && o.factory.logLevel.None?
      && o.factory.bundleContext.None?
      && o.factory.logServiceTracker.None?
      && o.factory.loggers.Keys == f.loggers.Keys
      && forall n :: n in o.factory.loggers ==>
        o.factory.loggers[n] == f.loggers[n].(logServiceTracker := None, serviceTracker := None, logLevel := None)
  {
    if f.logServiceTracker.None? then Outcome(f, Some(NullPointerException))
    else
      var loggers := map n | n in f.loggers ::
        f.loggers[n].(logServiceTracker := None, serviceTracker := None, logLevel := None);
      Outcome(Factory(None, None, loggers, None), None)
  }

  /** The string form of a verbosity configures the same threshold as the
      `Integer` itself. */
  lemma StringFormAgrees(f: Factory, n: int32)
    ensures SetLogLevel(f, StringValue(ToDecimal(n))) == SetLogLevel(f, IntegerValue(n))
  {
  }

  /** There is no 1..5 range check: "7" is accepted, gives the threshold -20
      and enables every level. */
  lemma SevenIsAccepted(f: Factory, l: Level)
    ensures SetLogLevel(f, StringValue("7")) == Success(f.(logLevel := Some(-20)))
    ensures Admits(Some(-20), Code(l))
  {
    assert ToDecimal(7) == "7";
    StringFormAgrees(f, 7);
  }

  /** "abc" is rejected with a `ConfigurationException` naming it, and the
      update leaves the factory and every logger as they were. */
  lemma UnparsableUpdateIsRejected(f: Factory)
    ensures Updated(f, Some(StringValue("abc")))
      == Outcome(f, Some(ConfigurationException(LOG_PACKAGE, NumberFormat("abc"))))
  {
    assert !IsDigit('a');
  }

  /** Without the framework property `start` configures verbosity 3: every
      cached logger then enables INFO, WARN and ERROR and nothing below. */
  lemma StartDefaultsToInfo(f: Factory, ctx: Context, l: Level)
    ensures Start(f, ctx, None).failure.None?
    ensures Start(f, ctx, None).factory.logLevel == Some(INFO_INT)
    ensures forall n :: n in Start(f, ctx, None).factory.loggers ==>
      (IsEnabled(GateOf(Start(f, ctx, None).factory.loggers[n]), l) <==> Rank(l) >= Rank(Info))
  {
    var o := Start(f, ctx, None);
    assert Threshold(3) == INFO_INT;
    assert o.failure.None? && o.factory.logLevel == Some(INFO_INT);
    forall n | n in o.factory.loggers
      ensures IsEnabled(GateOf(o.factory.loggers[n]), l) <==> Rank(l) >= Rank(Info)
    {
      assert o.factory.loggers[n].logLevel == Some(INFO_INT);
    }
  }

  /** An update without the verbosity key disables every cached logger. */
  lemma UpdateWithoutLevelDisablesAll(f: Factory, l: Level)
    ensures Updated(f, Some(Absent)).failure.None?
    ensures forall n :: n in Updated(f, Some(Absent)).factory.loggers ==>
      !IsEnabled(GateOf(Updated(f, Some(Absent)).factory.loggers[n]), l)
  {
  }

  /** After `stop` every logger that was ever handed out stays in the table,
      `getLogger` still returns it, and every call on it is silent. */
  lemma StopSilencesEveryLogger(f: Factory, name: string, u: bool, reg: Registry, fm: Formatter, level: Level, call: Call)
    requires f.logServiceTracker.Some?
    requires name in f.loggers
    ensures var stopped := Stop(f).factory;
      && GetLogger(stopped, name, u) == (stopped, stopped.loggers[name])
      && Run(stopped.loggers[name], reg, fm, level, call) == []
  {
    DisabledCallIsSilent(Stop(f).factory.loggers[name], reg, fm, level, call);
  }

  /** Every transition keeps each logger filed under its own name. A
      completed `start` or `stop` leaves every logger in step with the
      factory's threshold and broker tracker; a completed `updated` copies
      only the threshold, so it keeps loggers in step that already were. */
  lemma TransitionsKeepInvariants(f: Factory, ctx: Context, property: Option<string>, properties: Option<ConfigValue>)
    requires NamesAgree(f)
    ensures NamesAgree(Start(f, ctx, property).factory)
    ensures NamesAgree(Updated(f, properties).factory)
    ensures NamesAgree(Stop(f).factory)
    ensures Start(f, ctx, property).failure.None? ==> Synced(Start(f, ctx, property).factory)
    ensures Synced(f) ==> Synced(Updated(f, properties).factory)
    ensures Stop(f).failure.None? ==> Synced(Stop(f).factory)
  {
  }

  /** As written, a logger first requested after `start` ends up with an
      unopened per-name tracker, unlike one requested before `start`: with
      two services registered under its name, the first logger's ERROR call
      is submitted twice, once per reference, the second's once, without
      attribution. */
  lemma GetLoggerAfterStartIsUnattributed()
    ensures var ctx := Context(0);
      var reg := Registry(
        map[BrokerTracker(ctx) := Service(0)],
        map[Tracker(ctx, "a", true) := [Ref(1), Ref(2)]]);
      var before := Start(GetLogger(NewFactory(), "a", true).0, ctx, None).factory.loggers["a"];
      var after := GetLogger(Start(NewFactory(), ctx, None).factory, "a", true).1;
      && Log(before, reg, ERROR_INT, Some("m"), None)
         == [Emission(Service(0), Some(Ref(1)), 1, Some("m"), None), Emission(Service(0), Some(Ref(2)), 1, Some("m"), None)]
      && Log(after, reg, ERROR_INT, Some("m"), None)
         == [Emission(Service(0), None, 1, Some("m"), None)]
  {
    var ctx := Context(0);
    var reg := Registry(
      map[BrokerTracker(ctx) := Service(0)],
      map[Tracker(ctx, "a", true) := [Ref(1), Ref(2)]]);
    var before := Start(GetLogger(NewFactory(), "a", true).0, ctx, None).factory.loggers["a"];
    var after := GetLogger(Start(NewFactory(), ctx, None).factory, "a", true).1;
    OsgiLevelOfCodes(Error);
    assert before.serviceTracker == Some(Tracker(ctx, "a", true));
    assert after.serviceTracker == Some(Tracker(ctx, "a", false));
  }

  /** With the tracker opened, requesting a logger and starting the bundle
      commute: whichever comes first, the table ends up the same. */
  lemma GetLoggerOpenedCommutesWithStart(f: Factory, ctx: Context, property: Option<string>, name: string)
    requires name !in f.loggers
    requires Start(f, ctx, property).failure.None?
    ensures Start(GetLoggerOpened(f, name, true).0, ctx, property).failure.None?
    ensures Start(GetLoggerOpened(f, name, true).0, ctx, property).factory
         == GetLoggerOpened(Start(f, ctx, property).factory, name, true).0
  {
    var g := GetLoggerOpened(f, name, true);
    var sa := Start(g.0, ctx, property);
    var sf := Start(f, ctx, property);
    var b := GetLoggerOpened(sf.factory, name, true);
    assert sa.failure.None?;
    assert sa.factory.logLevel == sf.factory.logLevel;
    assert b.1 == Logger(name, Some(BrokerTracker(ctx)), Some(Tracker(ctx, name, true)), sf.factory.logLevel);
    forall n | n in sa.factory.loggers
      ensures n in b.0.loggers && sa.factory.loggers[n] == b.0.loggers[n]
    {
      if n == name {
        assert g.0.loggers[n] == g.1;
      } else {
        assert g.0.loggers[n] == f.loggers[n];
      }
    }
    assert sa.factory.loggers == b.0.loggers;
  }
}

=== FILE: java_lang.dfy ===
/** The parts of `java.lang` the binding relies on: 32-bit `int` arithmetic
    with its wrap-around and truncating division, `Integer.parseInt` on a
    decimal string, and opaque stand-ins for `Object` and `Throwable`. */
module JavaLang {
  import opened Wrappers

  const INT_MIN: int := -0x8000_0000
  const INT_MAX: int := 0x7fff_ffff
  const WORD: int := 0x1_0000_0000

  /** A value of Java's `int` type. */
  type int32 = x: int | -0x8000_0000 <= x <= 0x7fff_ffff

  /** A `java.lang.String` reference, possibly null. */
  type Text = Option<string>

  /** An opaque argument object handed to the formatter. */
  datatype Obj = Obj(id: nat)

  /** An opaque exception object attached to a log entry. */
  datatype Throwable = Throwable(id: nat)

  function Abs(x: int): nat { if x < 0 then -x else x }

  /** Two's-complement wrap-around: the `int` congruent to `x` modulo 2^32. */
  function Wrap(x: int): (r: int32)
    ensures (r - x) % WORD == 0
    ensures INT_MIN <= x <= INT_MAX ==> r == x
  {
    var k := (x - INT_MIN) / WORD;
    assert (x - INT_MIN) % WORD == x - INT_MIN - k * WORD;
    (x - INT_MIN) % WORD + INT_MIN
  }

  function Add(a: int32, b: int32): int32 { Wrap(a + b) }

  function Sub(a: int32, b: int32): int32 { Wrap(a - b) }

  function Neg(a: int32): int32 { Wrap(-(a as int)) }

  function Mul(a: int32, b: int32): int32 { Wrap(a * b) }

  /** Java's `a / b` for a positive divisor: the quotient is rounded toward
      zero, so the remainder `a - q * b` keeps the sign of the dividend and
      is smaller than the divisor in magnitude (section 15.17.2 of the Java
      Language Specification). */
  function Div(a: int32, b: int32): (q: int32)
    requires b > 0
    ensures a >= 0 ==> 0 <= a - q * b < b
    ensures a < 0 ==> -b < a - q * b <= 0
  {
    var m := Abs(a) / b;
    if a >= 0 then m else -m
  }

  predicate IsDigit(c: char) { '0' <= c <= '9' }

  predicate AllDigits(s: string) { forall i :: 0 <= i < |s| ==> IsDigit(s[i]) }

  function DigitValue(c: char): nat
    requires IsDigit(c)
  {
    (c as int) - ('0' as int)
  }

  function DigitChar(d: nat): (c: char)
    requires d < 10
    ensures IsDigit(c) && DigitValue(c) == d
  {
    ('0' as int + d) as char
  }

  /** The number a string of decimal digits denotes, most significant first. */
  function DigitsValue(s: string): nat
    requires AllDigits(s)
  {
    if s == [] then 0 else DigitsValue(s[..|s| - 1]) * 10 + DigitValue(s[|s| - 1])
  }

  /** What follows the optional leading sign. */
  function Unsigned(s: string): string
    requires |s| > 0
  {
    if s[0] == '-' || s[0] == '+' then s[1..] else s
  }

  /** `Integer.parseInt(s)`, the parse behind `Integer.valueOf(String)`:
      an optional `-` or `+` sign followed by one or more decimal digits
      whose value lies in the `int` range; anything else raises
      `NumberFormatException`, modelled as `None`. */
  function ParseInt(s: string): (r: Option<int32>)
    ensures r.Some? ==> |s| > 0 && |Unsigned(s)| > 0 && AllDigits(Unsigned(s))
    ensures r.Some? ==> r.value == if s[0] == '-' then 0 - DigitsValue(Unsigned(s)) as int else DigitsValue(Unsigned(s))
    ensures |s| > 0 && (exists i :: 0 <= i < |Unsigned(s)| && !IsDigit(Unsigned(s)[i])) ==> r.None?
    ensures |s| > 0 && |Unsigned(s)| > 0 && AllDigits(Unsigned(s)) && DigitsValue(Unsigned(s)) <= INT_MAX ==> r.Some?
  {
    if |s| == 0 then None
    else
      var digits := Unsigned(s);
      if |digits| == 0 || !AllDigits(digits) then None
      else
        var magnitude: int := DigitsValue(digits);
        var v := if s[0] == '-' then -magnitude else magnitude;
        if INT_MIN <= v <= INT_MAX then Some(v) else None
  }

  /** The decimal digits of `k`, without sign or leading zeros. */
  function Digits(k: nat): (s: string)
    ensures |s| > 0 && AllDigits(s)
    ensures DigitsValue(s) == k
  {
    if k < 10 then [DigitChar(k)]
    else
      var prefix := Digits(k / 10);
      var s := prefix + [DigitChar(k % 10)];
      assert s[..|s| - 1] == prefix;
      s
  }

  /** `Integer.toString(n)`: the decimal form `Integer.parseInt` reads back. */
  function ToDecimal(n: int32): (s: string)
    ensures ParseInt(s) == Some(n)
  {
    if n < 0 then
      var d := Digits(-(n as int));
      var s := "-" + d;
      assert s[1..] == d;
      s
    else Digits(n)
  }
}

=== FILE: levels.dfy ===
/** The two severity scales the binding translates between.

    SLF4J numbers its levels `TRACE_INT = 0` up to `ERROR_INT = 40` in steps
    of ten (`org.slf4j.spi.LocationAwareLogger`); a logger is configured with
    a threshold on that scale. The OSGi Log Service numbers them the other
    way round, `LOG_ERROR = 1` to `LOG_DEBUG = 4` (chapter 101 of the OSGi
    Compendium), and the binding extends that with 5 for TRACE. The user
    configures a verbosity on the OSGi scale. All arithmetic is Java `int`
    arithmetic, wrap-around included. */
module Levels {
  import opened Wrappers
  import opened JavaLang

  const TRACE_INT: int32 := 0
  const DEBUG_INT: int32 := 10
  const INFO_INT: int32 := 20
  const WARN_INT: int32 := 30
  const ERROR_INT: int32 := 40

  /** The five SLF4J levels, least severe first. */
  datatype Level = Trace | Debug | Info | Warn | Error

  /** The position of a level in order of severity. */
  function Rank(l: Level): nat
  {
    match l
    case Trace => 0
    case Debug => 1
    case Info => 2
    case Warn => 3
    case Error => 4
  }

  /** The `LocationAwareLogger` constant each leveled method passes on. */
  function Code(l: Level): (c: int32)
    ensures c == 10 * Rank(l)
  {
    match l
    case Trace => TRACE_INT
    case Debug => DEBUG_INT
    case Info => INFO_INT
    case Warn => WARN_INT
    case Error => ERROR_INT
  }

  /** `LoggerImpl.isLevelEnabled`: a null threshold enables nothing,
      otherwise every level at or above the threshold is enabled. */
  function Admits(threshold: Option<int32>, level: int32): (r: bool)
    ensures threshold.None? ==> !r
    ensures threshold.Some? ==> (r <==> threshold.value <= level)
  {
    threshold.Some? && threshold.value <= level
  }

  /** The OSGi level `LoggerImpl.log` submits a call of SLF4J level `level`
      at: `-(level - ERROR_INT) / 10 + 1` in `int` arithmetic. */
  function OsgiLevel(level: int32): (r: int32)
    ensures INT_MIN + ERROR_INT < level <= ERROR_INT ==> r == (ERROR_INT - level) / 10 + 1
    ensures level > ERROR_INT ==> r == 1 - (level - ERROR_INT) / 10
  {
    assert level > INT_MIN + ERROR_INT ==> Sub(level, ERROR_INT) == level - ERROR_INT;
    assert level > INT_MIN + ERROR_INT ==> Neg(level - ERROR_INT) == ERROR_INT - level;
    Add(Div(Neg(Sub(level, ERROR_INT)), 10), 1)
  }

  /** The threshold `Activator.setLogLevel` derives from a configured
      verbosity `n`: `ERROR_INT - (n - 1) * 10` in `int` arithmetic. */
  function Threshold(n: int32): (r: int32)
    ensures (r - (ERROR_INT - (n - 1) * 10)) % WORD == 0
    ensures INT_MIN <= ERROR_INT - (n - 1) * 10 <= INT_MAX ==> r == ERROR_INT - (n - 1) * 10
  {
    Sub(ERROR_INT, Mul(Sub(n, 1), 10))
  }

  /** The verbosities for which nothing overflows on the way to the
      threshold and back: neither `n - 1` nor `(n - 1) * 10` wraps, and the
      threshold lies far enough above `INT_MIN` that `level - ERROR_INT` in
      the OSGi conversion does not wrap either. */
  predicate ThresholdFits(n: int)
  {
    INT_MIN + ERROR_INT < ERROR_INT - (n - 1) * 10 <= INT_MAX
  }

  /** ERROR, WARN, INFO, DEBUG and TRACE go out as OSGi levels 1 to 5. */
  lemma OsgiLevelOfCodes(l: Level)
    ensures OsgiLevel(Code(l)) == 5 - Rank(l)
    ensures 1 <= OsgiLevel(Code(l)) <= 5
  {
  }

  /** Configuring verbosity `n` and converting the resulting threshold back
      to the OSGi scale gives `n` again, for every `n` whose threshold does
      not overflow, so in particular for 1 to 5. */
  lemma ThresholdRoundTrip(n: int32)
    requires ThresholdFits(n)
    ensures OsgiLevel(Threshold(n)) == n
  {
    var t := Threshold(n);
    if t > ERROR_INT {
      assert (t - ERROR_INT) / 10 == -(n - 1);
    } else {
      assert (ERROR_INT - t) / 10 == n - 1;
    }
  }

  /** The other direction: for every level above `INT_MIN + 40`, an SLF4J
      level survives the trip to the OSGi scale and back exactly when it is
      a multiple of ten, as the five constants are. Other values are rounded
      by the division; below the bound `level - ERROR_INT` wraps. */
  lemma OsgiLevelRoundTrip(level: int32)
    requires level > INT_MIN + ERROR_INT
    ensures ThresholdFits(OsgiLevel(level))
    ensures Threshold(OsgiLevel(level)) == level <==> level % 10 == 0
  {
    var k := OsgiLevel(level);
    if level <= ERROR_INT {
      var q := (ERROR_INT - level) / 10;
      assert k - 1 == q;
      assert ThresholdFits(k);
      assert Threshold(k) == ERROR_INT - 10 * q;
      assert ERROR_INT - level == 10 * q + (ERROR_INT - level) % 10;
    } else {
      var q := (level - ERROR_INT) / 10;
      assert k - 1 == -q;
      assert ThresholdFits(k);
      assert Threshold(k) == ERROR_INT + 10 * q;
      assert level - ERROR_INT == 10 * q + (level - ERROR_INT) % 10;
    }
  }

  /** For every verbosity `n` whose threshold does not overflow, `n`
      enables a level exactly when the level's OSGi number is at most `n`:
      verbosity 3 enables ERROR, WARN and INFO. */
  lemma VerbosityGate(n: int32, l: Level)
    requires ThresholdFits(n)
    ensures Admits(Some(Threshold(n)), Code(l)) <==> OsgiLevel(Code(l)) <= n
  {
    OsgiLevelOfCodes(l);
  }

  /** There is no range check: for every verbosity whose threshold does not
      overflow, one of 5 or more enables every level and one of 0 or less
      enables none (`ThresholdWraps` shows what overflow does instead). */
  lemma VerbosityOutOfRange(n: int32, l: Level)
    requires ThresholdFits(n)
    ensures n >= 5 ==> Admits(Some(Threshold(n)), Code(l))
    ensures n <= 0 ==> !Admits(Some(Threshold(n)), Code(l))
  {
    VerbosityGate(n, l);
    OsgiLevelOfCodes(l);
  }

  /** An overflowing verbosity wraps around: 429496730 yields the threshold
      46, above ERROR, so it silences every level. */
  lemma ThresholdWraps()
    ensures Threshold(429496730) == 46
    ensures forall l :: !Admits(Some(Threshold(429496730)), Code(l))
  {
  }

  /** Enabledness is monotone: a threshold that enables a level enables
      every more severe one. */
  lemma AdmitsMonotone(threshold: Option<int32>, l1: Level, l2: Level)
    requires Rank(l1) <= Rank(l2)
    ensures Admits(threshold, Code(l1)) ==> Admits(threshold, Code(l2))
  {
  }
}

=== FILE: logger_factory.dfy ===
/** `LoggerFactoryImpl`: the table of loggers by name, plus the state every
    new logger inherits: the shared threshold, the broker tracker and the
    bundle context used to create per-name trackers. */
module LoggerFactory {
  import opened Wrappers
  import opened JavaLang
  import opened Osgi
  import opened Levels
  import opened MessageFormattingLogger
  import opened LoggerImpl

  datatype Factory = Factory(
    logServiceTracker: Option<Tracker>,
    bundleContext: Option<Context>,
    loggers: map<string, Logger>,
    logLevel: Option<int32>)

  /** `new LoggerFactoryImpl()`: no loggers, every other field null. */
  function NewFactory(): (f: Factory)
    ensures f.loggers == map[]
    ensures f.logLevel.None? && f.logServiceTracker.None? && f.bundleContext.None?
  {
    Factory(None, None, map[], None)
  }

  /** Every cached logger is filed under its own name. */
  ghost predicate NamesAgree(f: Factory)
  {
    forall n :: n in f.loggers ==> f.loggers[n].name == n
  }

  /** Every cached logger sees the factory's threshold and broker tracker. */
  ghost predicate Synced(f: Factory)
  {
    forall n :: n in f.loggers ==>
      f.loggers[n].logLevel == f.logLevel && f.loggers[n].logServiceTracker == f.logServiceTracker
  }

  /** Creates and caches the logger for an unseen `name`. A per-name tracker
      is created only while a bundle context is known; `trackerCreated` says
      whether `new ServiceTracker(...)` succeeded, and when it throws
      `IllegalStateException` the context is forgotten and the logger is
      cached without a tracker. `opens` says whether the new tracker is
      opened. */
  function Create(f: Factory, name: string, trackerCreated: bool, opens: bool): (r: (Factory, Logger))
    requires name !in f.loggers
  {
    var tracker :=
      if f.bundleContext.Some? && trackerCreated then Some(Tracker(f.bundleContext.value, name, opens)) else None;
    var logger := Logger(name, f.logServiceTracker, tracker, f.logLevel);
    var context := if trackerCreated then f.bundleContext else None;
    (f.(bundleContext := context, loggers := f.loggers[name := logger]), logger)
  }

  /** `getLogger(name)`, as written: a lazy cache. The per-name tracker it
      creates is never opened. */
  function GetLogger(f: Factory, name: string, trackerCreated: bool): (r: (Factory, Logger))
    ensures name in r.0.loggers && r.0.loggers[name] == r.1
    ensures name in f.loggers ==> r == (f, f.loggers[name])
    ensures r.0.loggers.Keys == f.loggers.Keys + {name}
    ensures forall n :: n in f.loggers ==> r.0.loggers[n] == f.loggers[n]
    ensures r.0.logLevel == f.logLevel && r.0.logServiceTracker == f.logServiceTracker
    ensures name !in f.loggers ==>
      && r.1.name == name
      && r.1.logLevel == f.logLevel
      && r.1.logServiceTracker == f.logServiceTracker
      && (r.1.serviceTracker.Some? <==> f.bundleContext.Some? && trackerCreated)
      && (r.1.serviceTracker.Some? ==> r.1.serviceTracker.value == Tracker(f.bundleContext.value, name, false))
      && r.0.bundleContext == (if trackerCreated then f.bundleContext else None)
    ensures name in f.loggers ==> r.0.bundleContext == f.bundleContext
  {
    if name in f.loggers then (f, f.loggers[name]) else Create(f, name, trackerCreated, false)
  }

  /** `getLogger` as evidently intended: identical, except that the per-name
      tracker it creates is opened, as `Activator.start` opens the ones it
      creates. */
  function GetLoggerOpened(f: Factory, name: string, trackerCreated: bool): (r: (Factory, Logger))
    ensures name in f.loggers ==> r == GetLogger(f, name, trackerCreated)
    ensures name !in f.loggers ==>
      && r.0 == GetLogger(f, name, trackerCreated).0.(loggers := f.loggers[name := r.1])
      && r.1 == GetLogger(f, name, trackerCreated).1.(serviceTracker := r.1.serviceTracker)
      && (r.1.serviceTracker.Some? <==> GetLogger(f, name, trackerCreated).1.serviceTracker.Some?)
      && (r.1.serviceTracker.Some? ==> r.1.serviceTracker.value == Tracker(f.bundleContext.value, name, true))
  {
    if name in f.loggers then (f, f.loggers[name]) else Create(f, name, trackerCreated, true)
  }

  /** Until the bundle starts nothing is logged: a fresh factory hands out
      loggers with a null threshold, so every call on them is silent. */
  lemma FreshFactoryIsSilent(name: string, u: bool, reg: Registry, fm: Formatter, level: Level, call: Call)
    ensures GetLogger(NewFactory(), name, u).1.logLevel.None?
    ensures Run(GetLogger(NewFactory(), name, u).1, reg, fm, level, call) == []
  {
    DisabledCallIsSilent(GetLogger(NewFactory(), name, u).1, reg, fm, level, call);
  }

  /** `getLogger` keeps both table invariants. */
  lemma GetLoggerKeepsInvariants(f: Factory, name: string, u: bool)
    requires NamesAgree(f) && Synced(f)
    ensures NamesAgree(GetLogger(f, name, u).0) && Synced(GetLogger(f, name, u).0)
    ensures NamesAgree(GetLoggerOpened(f, name, u).0) && Synced(GetLoggerOpened(f, name, u).0)
  {
  }
}

=== FILE: logger_impl.dfy ===
/** `LoggerImpl`: a named logger whose gate is a nullable threshold and whose
    `log` submits each enabled call to the tracked `LogService`, once per
    service reference tracked under the logger's name. */
module LoggerImpl {
  import opened Wrappers
  import opened JavaLang
  import opened Osgi
  import opened Levels
  import opened MessageFormattingLogger

  /** The fields of a `LoggerImpl`: its name, the shared broker tracker, its
      own per-name tracker and its copy of the threshold. */
  datatype Logger = Logger(
    name: string,
    logServiceTracker: Option<Tracker>,
    serviceTracker: Option<Tracker>,
    logLevel: Option<int32>)

  /** LoggerImpl overrides `isLevelEnabled` with the threshold comparison. */
  function GateOf(logger: Logger): Gate
  {
    ThresholdGate(logger.logLevel)
  }

  /** One `logService.log(reference, level, message, t)` submission. */
  datatype Emission = Emission(
    service: Service,
    reference: Option<Ref>,
    level: int32,
    message: Text,
    t: Option<Throwable>)

  /** The loop over the reference array: one submission per reference, in
      array order, all with the same level, message and throwable. */
  function FanOut(service: Service, refs: seq<Ref>, level: int32, message: Text, t: Option<Throwable>): (out: seq<Emission>)
    ensures |out| == |refs|
    ensures forall i :: 0 <= i < |out| ==> out[i] == Emission(service, Some(refs[i]), level, message, t)
  {
    if refs == [] then []
    else [Emission(service, Some(refs[0]), level, message, t)] + FanOut(service, refs[1..], level, message, t)
  }

  /** The broker service the logger would submit to, `null` when it has no
      broker tracker or the tracker has no service. */
  function BrokerService(logger: Logger, reg: Registry): Option<Service>
  {
    if logger.logServiceTracker.None? then None else GetService(reg, logger.logServiceTracker.value)
  }

  /** The references tracked under the logger's name, `null` when it has no
      per-name tracker or the tracker reports none. */
  function NamedReferences(logger: Logger, reg: Registry): Option<seq<Ref>>
  {
    if logger.serviceTracker.None? then None else GetServiceReferences(reg, logger.serviceTracker.value)
  }

  /** `log(level, message, t)`. The logger is an input only: nothing here
      can change its threshold or trackers. */
  function Log(logger: Logger, reg: Registry, level: int32, message: Text, t: Option<Throwable>): (out: seq<Emission>)
    ensures !Admits(logger.logLevel, level) ==> out == []
    ensures BrokerService(logger, reg).None? ==> out == []
    ensures forall i :: 0 <= i < |out| ==>
      && Some(out[i].service) == BrokerService(logger, reg)
      && out[i].level == OsgiLevel(level)
      && out[i].message == message
      && out[i].t == t
    ensures Admits(logger.logLevel, level) && BrokerService(logger, reg).Some? ==>
      match NamedReferences(logger, reg)
      case None => |out| == 1 && out[0].reference.None?
      case Some(refs) => |out| == |refs| && forall i :: 0 <= i < |out| ==> out[i].reference == Some(refs[i])
  {
    if !Admits(logger.logLevel, level) then []
    else
      match BrokerService(logger, reg)
      case None => []
      case Some(service) =>
        var osgiLevel := OsgiLevel(level);
        match NamedReferences(logger, reg)
        case None => [Emission(service, None, osgiLevel, message, t)]
        case Some(refs) => FanOut(service, refs, osgiLevel, message, t)
  }

  /** What one public call on the logger causes: formatter invocations and
      submissions to the log service, in order. */
  datatype Observation = FormatterCalled(request: FormatRequest) | Submitted(emission: Emission)

  function Submissions(out: seq<Emission>): (obs: seq<Observation>)
    ensures |obs| == |out|
    ensures forall i :: 0 <= i < |obs| ==> obs[i] == Submitted(out[i])
  {
    if out == [] then [] else [Submitted(out[0])] + Submissions(out[1..])
  }

  /** Carries out the calls the formatting layer makes, with `log` bound to
      LoggerImpl's. */
  function Perform(logger: Logger, reg: Registry, effects: seq<Effect>): seq<Observation>
  {
    if effects == [] then []
    else
      var head := match effects[0]
        case Formatted(req) => [FormatterCalled(req)]
        case Logged(level, message, t) => Submissions(Log(logger, reg, level, message, t));
      head + Perform(logger, reg, effects[1..])
  }

  lemma PerformOne(logger: Logger, reg: Registry, e: Effect)
    ensures e.Logged? ==> Perform(logger, reg, [e]) == Submissions(Log(logger, reg, e.level, e.message, e.t))
    ensures e.Formatted? ==> Perform(logger, reg, [e]) == [FormatterCalled(e.request)]
  {
    assert [e][1..] == [];
  }

  lemma PerformTwo(logger: Logger, reg: Registry, e1: Effect, e2: Effect)
    ensures Perform(logger, reg, [e1, e2]) == Perform(logger, reg, [e1]) + Perform(logger, reg, [e2])
  {
    assert [e1, e2][1..] == [e2];
    assert [e1][1..] == [];
  }

  /** A public leveled call `X(...)` on a LoggerImpl, end to end: a
      parameterized call on a disabled level does nothing at all; on an
      enabled level it invokes the formatter once and then hands the result
      to LoggerImpl's `log` at the method's own level; the plain overloads
      go to `log` directly, which applies the gate itself. */
  function Run(logger: Logger, reg: Registry, fm: Formatter, level: Level, call: Call): (obs: seq<Observation>)
    ensures call.Parameterized() && !IsEnabled(GateOf(logger), level) ==> obs == []
    ensures !call.Parameterized() ==>
      obs == Submissions(Log(logger, reg, Code(level), Outgoing(fm, call).message, Outgoing(fm, call).throwable))
    ensures call.Parameterized() && IsEnabled(GateOf(logger), level) ==>
      obs == [FormatterCalled(Request(call))]
             + Submissions(Log(logger, reg, Code(level), Outgoing(fm, call).message, Outgoing(fm, call).throwable))
  {
    var effects := Invoke(GateOf(logger), fm, level, call);
    if !call.Parameterized() then
      PerformOne(logger, reg, effects[0]);
      Perform(logger, reg, effects)
    else if IsEnabled(GateOf(logger), level) then
      PerformTwo(logger, reg, effects[0], effects[1]);
      PerformOne(logger, reg, effects[0]);
      PerformOne(logger, reg, effects[1]);
      Perform(logger, reg, effects)
    else
      Perform(logger, reg, effects)
  }

  /** On a disabled level a call neither formats nor submits anything; a
      logger whose threshold is null has every level disabled. */
  lemma DisabledCallIsSilent(logger: Logger, reg: Registry, fm: Formatter, level: Level, call: Call)
    requires !IsEnabled(GateOf(logger), level)
    ensures Run(logger, reg, fm, level, call) == []
  {
  }

  /** A call on an enabled level while a broker is tracked and references
      `refs` are tracked under the logger's name: after the formatting step,
      the one message goes out once per reference, in order, at the OSGi
      level matching the method's level. Two references, two submissions. */
  lemma EnabledCallFansOut(logger: Logger, reg: Registry, fm: Formatter, level: Level, call: Call, service: Service, refs: seq<Ref>)
    requires IsEnabled(GateOf(logger), level)
    requires BrokerService(logger, reg) == Some(service)
    requires NamedReferences(logger, reg) == Some(refs)
    ensures var k := if call.Parameterized() then 1 else 0;
      Run(logger, reg, fm, level, call)[k..]
      == Submissions(FanOut(service, refs, 5 - Rank(level), Outgoing(fm, call).message, Outgoing(fm, call).throwable))
  {
    OsgiLevelOfCodes(level);
  }

  /** The same call when nothing is tracked under the logger's name: exactly
      one submission, attributed to no reference. */
  lemma EnabledCallUnattributed(logger: Logger, reg: Registry, fm: Formatter, level: Level, call: Call, service: Service)
    requires IsEnabled(GateOf(logger), level)
    requires BrokerService(logger, reg) == Some(service)
    requires NamedReferences(logger, reg).None?
    ensures var k := if call.Parameterized() then 1 else 0;
      Run(logger, reg, fm, level, call)[k..]
      == [Submitted(Emission(service, None, 5 - Rank(level), Outgoing(fm, call).message, Outgoing(fm, call).throwable))]
  {
    OsgiLevelOfCodes(level);
  }

  /** Under a registry a real tracker can produce, an enabled call with a
      broker present is always submitted at least once, attributed or not. */
  lemma EnabledCallSubmits(logger: Logger, reg: Registry, fm: Formatter, level: Level, call: Call, service: Service)
    requires Realizable(reg)
    requires IsEnabled(GateOf(logger), level)
    requires BrokerService(logger, reg) == Some(service)
    ensures exists i :: 0 <= i < |Run(logger, reg, fm, level, call)| && Run(logger, reg, fm, level, call)[i].Submitted?
  {
    var out := Log(logger, reg, Code(level), Outgoing(fm, call).message, Outgoing(fm, call).throwable);
    assert |out| > 0;
    var obs := Run(logger, reg, fm, level, call);
    var k := if call.Parameterized() then 1 else 0;
    assert obs[k] == Submissions(out)[0];
  }
}

=== FILE: message_formatting_logger.dfy ===
/** `MessageFormattingLogger`: the SLF4J-facing half of a logger. Each
    public method is bound to one level constant; the parameterized ones
    check the level before the message formatter runs, the plain ones hand
    the message straight to `log`. The subclass decides what `log` and
    `isLevelEnabled` do, so this layer is modelled as the sequence of calls
    it makes into the formatter and into `log`. */
module MessageFormattingLogger {
  import opened Wrappers
  import opened JavaLang
  import opened Levels

  /** Which `isLevelEnabled` is in force: the base class's, or LoggerImpl's
      override comparing against a nullable threshold. */
  datatype Gate = BaseGate | ThresholdGate(logLevel: Option<int32>)

  /** `isLevelEnabled(level)`, dispatched on the gate. */
  function IsLevelEnabled(g: Gate, level: int32): (r: bool)
    ensures g.BaseGate? ==> r
    ensures g.ThresholdGate? ==> (r <==> Admits(g.logLevel, level))
  {
    match g
    case BaseGate => true
    case ThresholdGate(t) => Admits(t, level)
  }

  /** `isTraceEnabled()` through `isErrorEnabled()`. */
  function IsEnabled(g: Gate, l: Level): (r: bool)
    ensures r <==> IsLevelEnabled(g, 10 * Rank(l))
  {
    IsLevelEnabled(g, Code(l))
  }

  /** `FormattingTuple`: the rendered message and the throwable, if any,
      that the formatter extracted from the arguments. */
  datatype FormattingTuple = FormattingTuple(message: Text, throwable: Option<Throwable>)

  /** `MessageFormatter.format` and `MessageFormatter.arrayFormat`. Their
      substitution rules are not part of this model; only their results and
      whether they were invoked are. */
  datatype Formatter = Formatter(
    format: (Text, Option<Obj>, Option<Obj>) -> FormattingTuple,
    arrayFormat: (Text, Option<seq<Option<Obj>>>) -> FormattingTuple)

  /** The arguments of one formatter invocation. */
  datatype FormatRequest =
    | PairFormat(format: Text, arg1: Option<Obj>, arg2: Option<Obj>)
    | ArrayFormat(format: Text, args: Option<seq<Option<Obj>>>)

  function Apply(fm: Formatter, req: FormatRequest): FormattingTuple
  {
    match req
    case PairFormat(f, a1, a2) => fm.format(f, a1, a2)
    case ArrayFormat(f, args) => fm.arrayFormat(f, args)
  }

  /** The five overloads each leveled method (`trace` … `error`) has. */
  datatype Call =
    | Plain(msg: Text)                                            // X(String msg)
    | WithThrowable(msg: Text, t: Option<Throwable>)              // X(String msg, Throwable t)
    | OneArg(format: Text, arg: Option<Obj>)                      // X(String format, Object arg)
    | TwoArgs(format: Text, arg1: Option<Obj>, arg2: Option<Obj>) // X(String format, Object a1, Object a2)
    | ArgArray(format: Text, args: Option<seq<Option<Obj>>>)      // X(String format, Object[] argArray)
  {
    predicate Parameterized() { OneArg? || TwoArgs? || ArgArray? }
  }

  /** The formatter invocation a parameterized call asks for; the
      single-argument overloads pass `null` as the second argument. */
  function Request(call: Call): FormatRequest
    requires call.Parameterized()
  {
    match call
    case OneArg(f, a) => PairFormat(f, a, None)
    case TwoArgs(f, a1, a2) => PairFormat(f, a1, a2)
    case ArgArray(f, args) => ArrayFormat(f, args)
  }

  /** The message and throwable a call hands to `log`: the formatter's
      result for a parameterized call, the call's own message otherwise,
      with a null throwable for `X(String msg)`. */
  function Outgoing(fm: Formatter, call: Call): FormattingTuple
  {
    match call
    case Plain(msg) => FormattingTuple(msg, None)
    case WithThrowable(msg, t) => FormattingTuple(msg, t)
    case _ => Apply(fm, Request(call))
  }

  /** One call this layer makes: into the formatter, or into `log`. */
  datatype Effect =
    | Formatted(request: FormatRequest)
    | Logged(level: int32, message: Text, t: Option<Throwable>)

  /** Whether the formatter was invoked at all. */
  predicate Formats(effects: seq<Effect>)
  {
    exists i :: 0 <= i < |effects| && effects[i].Formatted?
  }

  /** The number of calls into `log`. */
  function LogCount(effects: seq<Effect>): nat
  {
    if effects == [] then 0
    else (if effects[0].Logged? then 1 else 0) + LogCount(effects[1..])
  }

  /** Both `formatAndLog` overloads: nothing happens on a disabled level;
      otherwise the formatter runs once and its message and throwable go to
      `log` at the same level. */
  function FormatAndLog(g: Gate, fm: Formatter, level: int32, req: FormatRequest): (effects: seq<Effect>)
    ensures Formats(effects) <==> IsLevelEnabled(g, level)
    ensures !IsLevelEnabled(g, level) ==> effects == []
    ensures IsLevelEnabled(g, level) ==>
      && |effects| == 2
      && effects[0] == Formatted(req)
      && effects[1] == Logged(level, Apply(fm, req).message, Apply(fm, req).throwable)
    ensures LogCount(effects) == if IsLevelEnabled(g, level) then 1 else 0
  {
    if !IsLevelEnabled(g, level) then []
    else
      var tp := Apply(fm, req);
      var effects := [Formatted(req), Logged(level, tp.message, tp.throwable)];
      assert effects[0].Formatted?;
      assert LogCount(effects[1..]) == 1 by {
        assert effects[1..][1..] == [];
      }
      effects
  }

  /** One public call `X(...)` for the method of level `level`. */
  function Invoke(g: Gate, fm: Formatter, level: Level, call: Call): (effects: seq<Effect>)
    ensures Formats(effects) <==> call.Parameterized() && IsEnabled(g, level)
    ensures forall i :: 0 <= i < |effects| && effects[i].Logged? ==> effects[i].level == Code(level)
    ensures LogCount(effects) == if call.Parameterized() && !IsEnabled(g, level) then 0 else 1
    ensures call.Parameterized() && !IsEnabled(g, level) ==> effects == []
    ensures call.Plain? ==> effects == [Logged(Code(level), call.msg, None)]
    ensures call.WithThrowable? ==> effects == [Logged(Code(level), call.msg, call.t)]
    ensures call.Parameterized() && IsEnabled(g, level) ==>
      effects == [Formatted(Request(call)), Logged(Code(level), Outgoing(fm, call).message, Outgoing(fm, call).throwable)]
  {
    match call
    case Plain(msg) => [Logged(Code(level), msg, None)]
    case WithThrowable(msg, t) => [Logged(Code(level), msg, t)]
    case OneArg(f, a) => FormatAndLog(g, fm, Code(level), PairFormat(f, a, None))
    case TwoArgs(f, a1, a2) => FormatAndLog(g, fm, Code(level), PairFormat(f, a1, a2))
    case ArgArray(f, args) => FormatAndLog(g, fm, Code(level), ArrayFormat(f, args))
  }

  /** The single-argument overload is the two-argument one with a null
      second argument. */
  lemma OneArgPassesNull(g: Gate, fm: Formatter, level: Level, format: Text, arg: Option<Obj>)
    ensures Invoke(g, fm, level, OneArg(format, arg)) == Invoke(g, fm, level, TwoArgs(format, arg, None))
  {
  }

  /** Under the base class's `isLevelEnabled`, which enables every level,
      every parameterized call is formatted and logged. */
  lemma BaseGateAlwaysFormats(fm: Formatter, level: Level, call: Call)
    ensures IsEnabled(BaseGate, level)
    ensures call.Parameterized() ==> Formats(Invoke(BaseGate, fm, level, call))
    ensures LogCount(Invoke(BaseGate, fm, level, call)) == 1
  {
  }
}

=== FILE: osgi.dfy ===
/** The OSGi framework as the binding sees it: bundle contexts, service
    trackers and the services and references they currently report. The
    framework is foreign code, so what a tracker reports is an oracle, the
    `Registry`, rather than something computed here. */
module Osgi {
  import opened Wrappers

  /** `LogService.class.getName()`: the class the broker tracker follows. */
  const LOG_SERVICE_CLASS: string := "org.osgi.service.log.LogService"

  /** `LogService.class.getPackage().getName()`: the configuration key of the
      verbosity, and the property named by a `ConfigurationException`. */
  const LOG_PACKAGE: string := "org.osgi.service.log"

  /** A `BundleContext`. */
  datatype Context = Context(id: nat)

  /** A `ServiceTracker` created on `context` for the services registered
      under `clazz`; `open` records whether `open()` was called on it. */
  datatype Tracker = Tracker(context: Context, clazz: string, open: bool)

  /** A `LogService` instance: where entries are submitted. */
  datatype Service = Service(id: nat)

  /** A `ServiceReference`: the service an entry is attributed to. */
  datatype Ref = Ref(id: nat)

  /** What each tracker reports at the moment of a log call. A tracker that
      has no entry reports `null`. */
  datatype Registry = Registry(
    services: map<Tracker, Service>,
    references: map<Tracker, seq<Ref>>)

  /** The registries a real `ServiceTracker` can produce: it answers `null`,
      never an empty array, when it tracks no references. */
  ghost predicate Realizable(reg: Registry)
  {
    forall t :: t in reg.references ==> |reg.references[t]| > 0
  }

  /** `tracker.getService()`. A tracker that was never opened tracks nothing
      and answers `null` whatever is registered. */
  function GetService(reg: Registry, tracker: Tracker): (r: Option<Service>)
    ensures !tracker.open ==> r.None?
    ensures r.Some? <==> tracker.open && tracker in reg.services
    ensures r.Some? ==> r.value == reg.services[tracker]
  {
    if tracker.open && tracker in reg.services then Some(reg.services[tracker]) else None
  }

  /** `tracker.getServiceReferences()`, `null` for an unopened tracker. */
  function GetServiceReferences(reg: Registry, tracker: Tracker): (r: Option<seq<Ref>>)
    ensures !tracker.open ==> r.None?
    ensures r.Some? <==> tracker.open && tracker in reg.references
    ensures r.Some? ==> r.value == reg.references[tracker]
  {
    if tracker.open && tracker in reg.references then Some(reg.references[tracker]) else None
  }
}

=== FILE: wrappers.dfy ===
/** Option and Result, used for Java's null references and for the
    exceptions an operation can raise. */
module Wrappers {

  /** A value that may be absent; `None` stands for a Java `null`. */
  datatype Option<+T> = None | Some(value: T)

  /** Either a value or the error that replaced it. */
  datatype Result<+R, +E> = Success(value: R) | Failure(error: E)
}
